=== FILE: README.md ===
# GeoCam controller, modelled in Dafny

GeoCam is a browser camera that stamps photos with where and when they were
taken. This project models the core of its `GeoCam` controller class
(`script.js`, early revision):

- **The controller state machine** (`controller.dfy`, module `Controller`): the
  class `GeoCam` with the fields the source updates in place (`stream` present,
  whether its tracks are running, `track`, `isRecording`, the media recorder, `currentPosition`,
  `currentAddress`, the on-page map, `capturedMedia`, `currentCamera`,
  `flashActive`, `currentMode`) and the methods that guard and flip them. Each
  method states its whole new state against the old one through the ghost
  `State()` snapshot, and preserves the invariant `Valid()`: a recording runs
  only with a live recorder, a stream, and in video mode, and the flash is only
  marked on when there is a track.
- **Text fitting** (`captions.dfy`, module `Captions`): JavaScript's
  `text || fallback` for a missing or empty string, the address cut to 60
  characters for the photo footer and 80 for the on-page panel (57 or 77
  characters plus `...`), the `N/A` coordinate fallback, the panel texts after a
  geolocation attempt, and the download file name with its `.jpg`/`.webm`
  extension.
- **Number text** (`decimal.dfy`, module `Decimal`): `String(Date.now())` and
  `toFixed(6)` on a coordinate held in integer micro-degrees, each with a reader
  and a proof that reading the text back gives the number.
- **Photo geometry** (`footer.dfy`, module `Footer`): the final canvas is the
  frame plus a 120 px footer band drawn from y = frame height; the four text
  lines sit inside the band; the 140 x 90 mini map box sits at
  (width - 160, startY + 15), inside the band vertically and inside the canvas
  horizontally exactly when the width is at least 160; the crosshair is at the
  box's centre with its arms inside the box.

In this revision the footer is a fixed 120 px band, the mini map is a framed box
with a crosshair drawn from integer offsets, the address is cut to one line by
character count, and a video is recorded straight from the camera stream; the
model follows exactly that.

## Model

| member | source | states |
|---|---|---|
| `Decimal.NatToString` | script.js:461-463 | the text of `Date.now()` is non-empty, all decimal digits, and starts with `0` only for zero |
| `Decimal.NatToStringRoundTrip` | script.js:461-463 | reading the digits back gives the number |
| `Decimal.PadDigits` | script.js:268-269 | the decimals of `toFixed(6)` are exactly six digits |
| `Decimal.PadDigitsRoundTrip` | script.js:268-269 | six padded decimals read back as the fraction they render |
| `Decimal.FixedSix` | script.js:268-269 | `toFixed(6)` text has the shape sign, digits, point, six digits, with a minus sign exactly for negative values; its integer part is the shortest decimal text of the whole degrees (no leading zeros) and its decimals the six padded digits of the fraction |
| `Decimal.FixedSixRoundTrip` | script.js:268-269 | reading a `toFixed(6)` text back gives exactly the micro-degrees rendered |
| `Captions.OrElse` | script.js:271 | `text \|\| fallback` is the text when present and non-empty, else the fallback |
| `Captions.Fit` | script.js:272-274 | a fitted text is at most the limit; a short one is unchanged; a long one is exactly the limit, keeps the first limit - 3 characters and ends in `...` |
| `Captions.FitIdempotent` | script.js:272-274 | fitting a fitted text changes nothing |
| `Captions.FooterAddress` | script.js:271-274 | footer address is at most 60 characters; missing or empty gives `Address not available`; up to 60 is unchanged; longer keeps the first 57 characters plus `...` |
| `Captions.PanelAddress` | script.js:139-142 | panel address is at most 80 characters; up to 80 is unchanged; longer keeps the first 77 characters plus `...` |
| `Captions.FooterCoordinates` | script.js:268-269 | without a position both texts are `N/A`; with one they are exactly the `toFixed(6)` texts of latitude and longitude, neither is `N/A`, and each reads back as its coordinate |
| `Captions.LocatedAddress` | script.js:130-149 | the kept address is never empty: exactly the display name when the geocoder gave a non-empty one, else `Address not available` (also when the request failed) |
| `Captions.PanelCoordinatesRoundTrip` | script.js:126-128 | the panel text `lat°, lng°` reads back as exactly the fix it shows |
| `Captions.LocationPanel` | script.js:108-187 | the panel address is at most 80 characters; no geolocation shows `Geolocation not supported` / `Location services unavailable`; a position error shows `Location unavailable` / `Enable location services`; after a fix the coordinates text reads back as the fix; a failed geocode shows `Address unavailable`; with a geocoder answer the address is the kept address fitted to 80 characters (the display name itself when it is non-empty and at most 80 long) |
| `Captions.Extension` | script.js:461-463 | the extension is `jpg` exactly for a photo and contains no point |
| `Captions.DownloadName` | script.js:461-463 | the name starts with `GeoCam_<type>_`, followed by exactly the decimal text of the click time, which reads back as the click time; a photo's name ends in `.jpg` and a video's in `.webm`, and the point before the extension is the only point in the name |
| `Footer.MapBox` | script.js:290-299 | the map box is 140 x 90, 20 px from the right edge, strictly inside the 120 px band vertically, and inside the band horizontally exactly when width >= 160 |
| `Footer.Crosshair` | script.js:301-312 | the crosshair is at the exact centre of the box and its 10 px arms stay inside it |
| `Footer.FooterLines` | script.js:265-285 | four text lines at x = 20 with baselines 25, 45, 65 and 85 px below the band top, all inside the band: `GeoCam`, the date and time, the footer coordinate texts and the fitted footer address; the address line is at most 62 characters; no position gives `N/A, N/A` |
| `Footer.DrawMiniMap` | script.js:290-317 | the 140 x 90 box at `MapBox`, the crosshair at the box centre given by `Crosshair`, and the title `Location Map` at the box's left edge 5 px above it, below the band top |
| `Footer.DrawFooter` | script.js:260-322 | the backdrop covers the band; the text lines are `FooterLines`; the mini map is drawn exactly when a position and the map exist, with its box at `MapBox`, its crosshair at `Crosshair` of the box and the `Location Map` title at the box's left edge 5 px above it |
| `Footer.ComposePhoto` | script.js:222-238 | the canvas is as wide as the frame and 120 px taller; the frame fills the top; the footer is the one drawn at the frame height with width = frame width and height 120; its band starts at the frame height and reaches the canvas bottom; the map box lies inside the canvas exactly when width >= 160 |
| `Controller.Flip` | script.js:407 | switching always gives the other camera |
| `Controller.FlipTwice` | script.js:407 | two switches give the original camera |
| `Controller.GeoCam.constructor` | script.js:16-27 | initial state: no stream, no track, not recording, no position or address, no map, empty gallery, user camera, flash off, photo mode |
| `Controller.GeoCam.SetupCamera` | script.js:39-69 | the current stream's tracks are stopped; a granted stream then replaces stream and track and runs; a refused request leaves the references to the stopped stream and track in place, no longer running |
| `Controller.GeoCam.SetMode` | script.js:75-93 | while recording: refused, nothing changes; otherwise the mode becomes the requested one and the camera is reopened: a granted stream replaces stream and track and runs, a refused one leaves the old references stopped |
| `Controller.GeoCam.ToggleVideo` | script.js:324-367 | recording: stops the recorder and ends not recording; not recording without a stream: refused with the notice, nothing changes; on a stream whose tracks were stopped the recorder's start fails before the flag flips, nothing changes; otherwise starts the recorder and ends recording |
| `Controller.GeoCam.OnRecordingStopped` | script.js:353-359 | the finished video is appended to the gallery; nothing else changes |
| `Controller.GeoCam.ToggleFlash` | script.js:369-394 | no track or no `getCapabilities`, or no torch: refused, nothing changes; otherwise the flash is negated, and ends off when the torch request fails |
| `Controller.GeoCam.SwitchCamera` | script.js:396-415 | no stream: nothing changes; recording: refused, nothing changes; otherwise the other camera, flash off, camera reopened (the new track running, or the old references stopped when the request is refused) |
| `Controller.GeoCam.AddToGallery` | script.js:531-536 | exactly one record `{type, blob, url, timestamp}` is appended; earlier entries and all other fields are unchanged |
| `Controller.GeoCam.CapturePhoto` | script.js:203-258 | without a stream nothing happens; otherwise the photo is the frame composed with its footer and one photo record is appended |
| `Controller.GeoCam.OnCaptureClick` | script.js:96-102 | photo mode: without a stream nothing changes, otherwise the photo is the frame composed with its footer and one photo record is appended; video mode: a recording stops, or without a stream the start is refused and nothing changes, or on a stopped stream the start fails and nothing changes, or a recording starts; each case gives the full new state |
| `Controller.GeoCam.StoreLocation` | script.js:123-187 | a fix stores position, kept address and map; a position error stores the fallback address and the map; nothing else changes |
| `Controller.GeoCam.ApplyLocation` | script.js:123-187 | the panel shows `LocationPanel`; a fix stores position, kept address and map; a failure stores the fallback address and the map; no geolocation changes nothing |
| `Controller.SwitchCameraTwice` | script.js:396-415 | two successful switches restore the original camera and leave the flash off |
| `Controller.RecordingLocksControls` | script.js:75-81 | from a live stream in video mode, starting and stopping go through both branches of `toggleVideo` (script.js:324-366); during a recording, the mode switch (script.js:75-81) and the camera switch (script.js:399-402) are refused; after stopping, the mode and camera are those before the recording |

## Left out

- Camera and microphone access (`getUserMedia`, track stopping, waiting for metadata): a camera request is reduced to its outcome, the track it yields or nothing, passed to `SetupCamera`.
- The media recorder's events, chunks and blob assembly, and its MIME type choice (the expression `"video/webm;codecs=vp9" || "video/webm" || "video/mp4"` always yields the first string; the fallback to a default recorder when that type is refused is not modelled): a recording is the `isRecording` flag, and the finished blob and its URL are parameters of `OnRecordingStopped`.
- `navigator.geolocation`, the reverse-geocoding `fetch` and the Leaflet map: their outcome is the `LocationOutcome` passed to `ApplyLocation`; the map is only a "map exists" flag.
- Canvas pixels, colours, fonts and strokes, `toBlob` JPEG encoding and object URLs: only the geometry and the texts are modelled; the encoded blob and its URL are parameters.
- `toLocaleDateString`/`toLocaleTimeString`/`toLocaleString` locale formatting and the clock: date and time texts and timestamps are parameters.
- Decimal.FixedSix: the position is given in integer micro-degrees, so the floating-point rounding of `toFixed(6)` and its `-0.000000` for tiny negative values are not modelled.
- Captions.Fit: lengths and cuts count Unicode characters, while JavaScript counts UTF-16 code units (an address with characters outside the Basic Multilingual Plane is cut at a different place, possibly inside a surrogate pair).
- Controller.GeoCam.ToggleFlash: a `getCapabilities` call that throws (which also turns the flash off) is not modelled; only a refused torch request is.
- Controller.GeoCam.CapturePhoto: the wait for a decodable frame, the spinner and status texts, the preview and the failure alert are not modelled; the capture always succeeds once a stream exists.
- Controller.GeoCam.ToggleVideo: requires that it is called in video mode or while recording, which its only caller, the capture button handler, guarantees.
- Status texts (`updateStatus`), alerts other than the returned notices, button classes and icons, the preview timeout, the gallery's DOM item with its download, delete, share and full-size view handlers (only the download name is modelled), `destroy`, the page lifecycle listeners and the service worker: user-interface and lifecycle wiring.
- Asynchrony: `setupCamera`, `toggleFlash` and `switchCamera` are async and their awaits could interleave with other events; each method here runs to completion. The same holds for `ApplyLocation` (the source sets the position before awaiting the geocoder and only then the address and the map, so a photo taken in between shows the coordinates, `Address not available` and no mini map; the model moves to the end state at once), for `CapturePhoto` (the footer is composed before, and the record appended in, the later `toBlob` callback) and for `SetMode` (the camera restart is not awaited).
- Controller.GeoCam.SetupCamera: after a refused request the stream and track still refer to the stopped stream, so, as in the source, the "stream present" guards of `CapturePhoto`, `ToggleVideo` and `SwitchCamera` and the "track present" guard of `ToggleFlash` still pass. The model records the stopped state (`streamLive` false) and uses it in one place: `ToggleVideo` does not start a recording on it, because the recorder's `start()` (script.js:361) fails on a stream whose tracks are stopped, and the error leaves the handler before `isRecording` flips (script.js:366). A photo captured from a stopped stream is composed and stored as from a running one (the frame's pixels are not modelled), and a torch request on a stopped track is covered by the request outcome `ToggleFlash` already takes as a parameter.

=== FILE: captions.dfy ===
/**
 * The texts the controller derives from its location state: the fallback
 * strings, the address fitted to the photo footer (60 characters) and to the
 * on-page panel (80 characters), the coordinate texts, the on-page location
 * panel after a geolocation attempt, and the download file name.
 */
module Captions {
  import opened Wrappers
  import opened Decimal

  /** A position fix, in integer micro-degrees. */
  datatype Fix = Fix(latitude: int, longitude: int)

  /** What is stored in the gallery, and what its download name says. */
  datatype MediaKind = Photo | Video {
    function Name(): (s: string)
      ensures s == "photo" <==> this == Photo
    {
      if Photo? then "photo" else "video"
    }
  }

  const AddressFallback: string := "Address not available"
  const CoordinateFallback: string := "N/A"
  const Ellipsis: string := "..."
  const FooterAddressLimit: nat := 60
  const PanelAddressLimit: nat := 80

  /**
   * JavaScript's `text || fallback` for a string that may be null: the text
   * when it is present and non-empty (a truthy string), else the fallback.
   */
  function OrElse(text: Option<string>, fallback: string): (r: string)
    ensures r == fallback || (text == Some(r) && r != "")
    ensures text.Some? && text.value != "" ==> r == text.value
  {
    if text.Some? && text.value != "" then text.value else fallback
  }

  /**
   * A text cut to `limit` characters: a longer one keeps its first
   * `limit - 3` characters and ends in an ellipsis.
   */
  function Fit(s: string, limit: nat): (r: string)
    requires limit >= |Ellipsis|
    ensures |r| <= limit
    ensures |s| <= limit ==> r == s
    ensures |s| > limit ==> |r| == limit
    ensures |s| > limit ==> r[..limit - 3] == s[..limit - 3] && r[limit - 3..] == Ellipsis
  {
    if |s| > limit then s[..limit - 3] + Ellipsis else s
  }

  /** A fitted text is already fitted. */
  lemma FitIdempotent(s: string, limit: nat)
    requires limit >= |Ellipsis|
    ensures Fit(Fit(s, limit), limit) == Fit(s, limit)
  {
  }

  /** The address line of the photo footer. */
  function FooterAddress(address: Option<string>): (r: string)
    ensures |r| <= FooterAddressLimit
    ensures address.None? || address == Some("") ==> r == AddressFallback
    ensures address.Some? && address.value != "" && |address.value| <= FooterAddressLimit ==> r == address.value
    ensures address.Some? && |address.value| > FooterAddressLimit ==>
      |r| == FooterAddressLimit && r[..57] == address.value[..57] && r[57..] == Ellipsis
  {
    Fit(OrElse(address, AddressFallback), FooterAddressLimit)
  }

  /** The address line of the on-page panel. */
  function PanelAddress(address: string): (r: string)
    ensures |r| <= PanelAddressLimit
    ensures |address| <= PanelAddressLimit ==> r == address
    ensures |address| > PanelAddressLimit ==>
      |r| == PanelAddressLimit && r[..77] == address[..77] && r[77..] == Ellipsis
  {
    Fit(address, PanelAddressLimit)
  }

  /**
   * The latitude and longitude texts of the photo footer: each is
   * `position?.coordinate?.toFixed(6) || "N/A"`.
   */
  function FooterCoordinates(position: Option<Fix>): (r: (string, string))
    ensures position.None? ==> r == (CoordinateFallback, CoordinateFallback)
    ensures position.Some? ==> r == (FixedSix(position.value.latitude), FixedSix(position.value.longitude))
    ensures position.Some? ==> r.0 != CoordinateFallback && r.1 != CoordinateFallback
    ensures position.Some? ==>
      IsFixedSix(r.0) && IsFixedSix(r.1) &&
      ReadFixedSix(r.0) == position.value.latitude && ReadFixedSix(r.1) == position.value.longitude
  {
    match position
    case None => (CoordinateFallback, CoordinateFallback)
    case Some(fix) =>
      FixedSixRoundTrip(fix.latitude);
      FixedSixRoundTrip(fix.longitude);
      (OrElse(Some(FixedSix(fix.latitude)), CoordinateFallback), OrElse(Some(FixedSix(fix.longitude)), CoordinateFallback))
  }

  /** The answer of the reverse-geocoding request. */
  datatype Geocode =
    | GeocodeFailed                         // the request or its JSON decoding threw
    | Geocoded(displayName: Option<string>) // the response's `display_name`, if any

  /** How a geolocation attempt ended. */
  datatype LocationOutcome =
    | Unsupported                           // the browser has no geolocation
    | PositionError                         // the position request failed
    | Located(fix: Fix, geocode: Geocode)

  /** The on-page coordinates and address texts. */
  datatype PanelText = PanelText(coordinates: string, address: string)

  /** The address the controller keeps after a position was found. */
  function LocatedAddress(geocode: Geocode): (r: string)
    ensures r != ""
    ensures geocode.GeocodeFailed? ==> r == AddressFallback
    ensures geocode.Geocoded? ==> r == AddressFallback || geocode.displayName == Some(r)
    ensures geocode.Geocoded? && geocode.displayName.Some? && geocode.displayName.value != "" ==>
      r == geocode.displayName.value
  {
    match geocode
    case GeocodeFailed => AddressFallback
    case Geocoded(name) => OrElse(name, AddressFallback)
  }

  /** The on-page coordinates text of a fix: `lat°, lng°`. */
  function PanelCoordinates(fix: Fix): string {
    FixedSix(fix.latitude) + "°, " + FixedSix(fix.longitude) + "°"
  }

  /** Index of the first `c` in `s`, or `|s|` when there is none. */
  function IndexOf(s: string, c: char): (k: nat)
    ensures k <= |s|
    ensures k < |s| ==> s[k] == c
    ensures forall i :: 0 <= i < k ==> s[i] != c
  {
    if s == [] then 0 else if s[0] == c then 0 else 1 + IndexOf(s[1..], c)
  }

  /** Reads a `lat°, lng°` text back into a fix, if it has that shape. */
  function ReadPanelCoordinates(t: string): Option<Fix> {
    var k := IndexOf(t, '°');
    if k + 4 <= |t| && t[k..k + 3] == "°, " && t[|t| - 1] == '°' then
      var lat := t[..k];
      var lng := t[k + 3..|t| - 1];
      if IsFixedSix(lat) && IsFixedSix(lng) then Some(Fix(ReadFixedSix(lat), ReadFixedSix(lng))) else None
    else
      None
  }

  /** A `toFixed(6)` text holds no degree sign. */
  lemma FixedSixHasNoDegree(v: int)
    ensures forall i :: 0 <= i < |FixedSix(v)| ==> FixedSix(v)[i] != '°'
  {
  }

  /** The first `c` in `a + rest` is the head of `rest` when `a` holds none. */
  lemma IndexOfAfter(a: string, rest: string, c: char)
    requires forall i :: 0 <= i < |a| ==> a[i] != c
    requires |rest| > 0 && rest[0] == c
    ensures IndexOf(a + rest, c) == |a|
  {
    var s := a + rest;
    assert s[|a|] == c;
  }

  /** Reading `a°, b°` gives the two `toFixed(6)` values back. */
  lemma ReadDegreePair(a: string, b: string)
    requires IsFixedSix(a) && IsFixedSix(b)
    requires forall i :: 0 <= i < |a| ==> a[i] != '°'
    ensures ReadPanelCoordinates(a + "°, " + b + "°") == Some(Fix(ReadFixedSix(a), ReadFixedSix(b)))
  {
    var rest := "°, " + b + "°";
    var t := a + rest;
    assert a + "°, " + b + "°" == t;
    IndexOfAfter(a, rest, '°');
    var k := |a|;
    assert t[k..k + 3] == "°, ";
    assert t[..k] == a;
    assert t[k + 3..|t| - 1] == b;
  }

  /** The panel's coordinates text reads back as exactly the fix it shows. */
  lemma PanelCoordinatesRoundTrip(fix: Fix)
    ensures ReadPanelCoordinates(PanelCoordinates(fix)) == Some(fix)
  {
    FixedSixHasNoDegree(fix.latitude);
    FixedSixRoundTrip(fix.latitude);
    FixedSixRoundTrip(fix.longitude);
    ReadDegreePair(FixedSix(fix.latitude), FixedSix(fix.longitude));
  }

  /** What the on-page panel shows once a geolocation attempt has ended. */
  function LocationPanel(outcome: LocationOutcome): (p: PanelText)
    ensures |p.address| <= PanelAddressLimit
    ensures outcome.Unsupported? ==>
      p == PanelText("Geolocation not supported", "Location services unavailable")
    ensures outcome.PositionError? ==>
      p == PanelText("Location unavailable", "Enable location services")
    ensures outcome.Located? && outcome.geocode.GeocodeFailed? ==> p.address == "Address unavailable"
    ensures outcome.Located? ==> ReadPanelCoordinates(p.coordinates) == Some(outcome.fix)
    ensures outcome.Located? && outcome.geocode.Geocoded? ==>
      p.address == PanelAddress(LocatedAddress(outcome.geocode))
    ensures outcome.Located? && outcome.geocode.Geocoded? && outcome.geocode.displayName.Some? &&
      0 < |outcome.geocode.displayName.value| <= PanelAddressLimit
      ==> p.address == outcome.geocode.displayName.value
  {
    match outcome
    case Unsupported =>
      PanelText("Geolocation not supported", "Location services unavailable")
    case PositionError =>
      PanelText("Location unavailable", "Enable location services")
    case Located(fix, GeocodeFailed) =>
      PanelCoordinatesRoundTrip(fix);
      PanelText(PanelCoordinates(fix), "Address unavailable")
    case Located(fix, geocode) =>
      PanelCoordinatesRoundTrip(fix);
      PanelText(PanelCoordinates(fix), PanelAddress(LocatedAddress(geocode)))
  }

  /** Extension of a downloaded file. */
  function Extension(kind: MediaKind): (e: string)
    ensures e == "jpg" <==> kind == Photo
    ensures forall i :: 0 <= i < |e| ==> e[i] != '.'
  {
    if kind == Photo then "jpg" else "webm"
  }

  /**
   * `GeoCam_${type}_${Date.now()}.${ext}`, the name a download is saved
   * under. Its only point is the one before the extension, so the file type
   * is read as JPEG for a photo and WebM for a video.
   */
  function DownloadName(kind: MediaKind, clickTime: nat): (r: string)
    ensures kind == Photo ==> |r| > 4 && r[|r| - 4..] == ".jpg"
    ensures kind == Video ==> |r| > 5 && r[|r| - 5..] == ".webm"
    ensures forall i :: 0 <= i < |r| && r[i] == '.' ==> i == |r| - |Extension(kind)| - 1
    ensures |NamePrefix(kind)| < |r| - |Extension(kind)| - 1 && r[..|NamePrefix(kind)|] == NamePrefix(kind)
    ensures var stamp := r[|NamePrefix(kind)|..|r| - |Extension(kind)| - 1];
      stamp == NatToString(clickTime) && AllDigits(stamp) && ValueOf(stamp) == clickTime
  {
    var head := NamePrefix(kind);
    var digits := NatToString(clickTime);
    var tail := "." + Extension(kind);
    assert forall i :: 0 <= i < |head| ==> head[i] != '.';
    OnlyDotBeforeExtension(head, digits, Extension(kind));
    ThreeParts(head, digits, tail);
    NatToStringRoundTrip(clickTime);
    head + digits + tail
  }

  /** The three parts of `head + middle + tail` are found back by slicing. */
  lemma ThreeParts(head: string, middle: string, tail: string)
    ensures var r := head + middle + tail;
      r[..|head|] == head && r[|head|..|head| + |middle|] == middle && r[|head| + |middle|..] == tail
  {
    var r := head + middle + tail;
    assert r[..|head|] == head;
    assert r[|head|..|head| + |middle|] == middle;
  }

  /** `GeoCam_${type}_`, the start of every download name. */
  function NamePrefix(kind: MediaKind): string {
    "GeoCam_" + kind.Name() + "_"
  }

  /** In `head + digits + "." + ext`, with no point in `head` or `ext`, the only point is the one shown. */
  lemma OnlyDotBeforeExtension(head: string, digits: string, ext: string)
    requires forall i :: 0 <= i < |head| ==> head[i] != '.'
    requires AllDigits(digits)
    requires forall i :: 0 <= i < |ext| ==> ext[i] != '.'
    ensures var r := head + digits + ("." + ext);
      forall i :: 0 <= i < |r| && r[i] == '.' ==> i == |head| + |digits|
  {
  }
}

=== FILE: controller.dfy ===
/**
 * The `GeoCam` controller: the fields it updates in place and the methods
 * that guard and flip them. Browser services are not called: a stream or a
 * track that the camera request produced, the outcome of a torch request, a
 * geolocation outcome, an encoded blob and its object URL, and the clock are
 * all passed in by the caller.
 */
module Controller {
  import opened Wrappers
  import opened Captions
  import opened Footer

  /** The capture button's behaviour. */
  datatype Mode = PhotoMode | VideoMode

  /** The camera's `facingMode`. */
  datatype Camera = User | Environment

  /** The other camera. */
  function Flip(c: Camera): (r: Camera)
    ensures r != c
  {
    if c == User then Environment else User
  }

  /** Switching twice faces the original way again. */
  lemma FlipTwice(c: Camera)
    ensures Flip(Flip(c)) == c
  {
  }

  /** The live video track: whether it has `getCapabilities`, and whether it reports a torch. */
  datatype Track = Track(canQueryCapabilities: bool, torch: bool)

  /** A gallery record `{type, blob, url, timestamp}`. */
  datatype MediaItem = MediaItem(kind: MediaKind, blob: seq<bv8>, url: string, timestamp: int)

  /** All the controller's modelled fields at one moment. */
  datatype Snapshot = Snapshot(
    hasStream: bool,
    streamLive: bool,
    track: Option<Track>,
    isRecording: bool,
    currentPosition: Option<Fix>,
    currentAddress: Option<string>,
    hasMap: bool,
    capturedMedia: seq<MediaItem>,
    currentCamera: Camera,
    flashActive: bool,
    currentMode: Mode)

  const StopRecordingFirstForMode: string := "Please stop recording before switching modes"
  const StopRecordingFirstForCamera: string := "Please stop recording before switching cameras"
  const CameraNotAvailable: string := "Camera not available"
  const FlashNotSupported: string := "Flash not supported on this device"
  const FlashNotAvailable: string := "Flash not available on this camera"
  const FlashFailed: string := "Unable to control flash"

  class GeoCam {
    /** `stream != null`: the guards of the source test only this. */
    var hasStream: bool
    /** The stream's tracks are running: cleared when a camera request stops them. */
    var streamLive: bool
    var track: Option<Track>
    var isRecording: bool
    var currentPosition: Option<Fix>
    var currentAddress: Option<string>
    /** `map != null`: the on-page map was created. */
    var hasMap: bool
    var capturedMedia: seq<MediaItem>
    var currentCamera: Camera
    var flashActive: bool
    var currentMode: Mode

    ghost function State(): Snapshot
      reads this
    {
      Snapshot(hasStream, streamLive, track, isRecording, currentPosition, currentAddress,
               hasMap, capturedMedia, currentCamera, flashActive, currentMode)
    }

    /**
     * A recording runs over a stream, in video mode; the
     * torch is only marked on when there is a track.
     */
    ghost predicate Valid()
      reads this
    {
      (streamLive ==> hasStream) &&
      (isRecording ==> hasStream && currentMode == VideoMode) &&
      (flashActive ==> track.Some?)
    }

    constructor ()
      ensures Valid()
      ensures State() == Snapshot(false, false, None, false, None, None, false, [], User, false, PhotoMode)
    {
      hasStream, streamLive, track := false, false, None;
      isRecording := false;
      currentPosition, currentAddress, hasMap := None, None, false;
      capturedMedia := [];
      currentCamera, flashActive, currentMode := User, false, PhotoMode;
    }

    /**
     * A camera request: the current stream's tracks are stopped first; a
     * granted stream then replaces stream and track and runs, while a refused
     * one leaves the references to the stopped stream and track in place.
     */
    method SetupCamera(granted: Option<Track>)
      requires Valid()
      modifies this
      ensures Valid()
      ensures granted.Some? ==> State() == old(State()).(hasStream := true, streamLive := true, track := granted)
      ensures granted.None? ==> State() == old(State()).(streamLive := false)
    {
      streamLive := false;
      if granted.Some? {
        hasStream, streamLive := true, true;
        track := granted;
      }
    }

    /** Mode buttons: refused while recording, else switch and reopen the camera. */
    method SetMode(mode: Mode, reopened: Option<Track>) returns (notice: Option<string>)
      requires Valid()
      modifies this
      ensures Valid()
      ensures old(isRecording) ==> notice == Some(StopRecordingFirstForMode) && State() == old(State())
      ensures !old(isRecording) ==> notice == None && currentMode == mode
      ensures !old(isRecording) && reopened.Some? ==>
        State() == old(State()).(currentMode := mode, hasStream := true, streamLive := true, track := reopened)
      ensures !old(isRecording) && reopened.None? ==>
        State() == old(State()).(currentMode := mode, streamLive := false)
    {
      if isRecording {
        notice := Some(StopRecordingFirstForMode);
        return;
      }
      notice := None;
      currentMode := mode;
      SetupCamera(reopened);
    }

    /**
     * Start or stop a recording. Its only caller, the capture button, calls
     * it in video mode or while a recording runs. A start on a stream whose
     * tracks a refused camera request stopped fails and changes nothing.
     */
    method ToggleVideo() returns (notice: Option<string>)
      requires Valid()
      requires isRecording || currentMode == VideoMode
      modifies this
      ensures Valid()
      ensures old(isRecording) ==>
        notice == None && State() == old(State()).(isRecording := false)
      ensures !old(isRecording) && !old(hasStream) ==>
        notice == Some(CameraNotAvailable) && State() == old(State())
      ensures !old(isRecording) && old(hasStream) && !old(streamLive) ==>
        notice == None && State() == old(State())
      ensures !old(isRecording) && old(hasStream) && old(streamLive) ==>
        notice == None && State() == old(State()).(isRecording := true)
    {
      notice := None;
      if !isRecording {
        if !hasStream {
          notice := Some(CameraNotAvailable);
          return;
        }
        if !streamLive {
          // The recorder refuses to start on a stream whose tracks were
          // stopped; the error ends the handler before the flag flips.
          return;
        }
      }
      isRecording := !isRecording;
    }

    /** The recorder's `onstop` handler: the finished video joins the gallery. */
    method OnRecordingStopped(blob: seq<bv8>, url: string, now: int)
      requires Valid()
      modifies this
      ensures Valid()
      ensures State() == old(State()).(capturedMedia := old(capturedMedia) + [MediaItem(Video, blob, url, now)])
    {
      AddToGallery(Video, blob, url, now);
    }

    /**
     * The flash button. `applied` is whether the track accepted the torch
     * constraint; a refusal turns the flash off.
     */
    method ToggleFlash(applied: bool) returns (notice: Option<string>)
      requires Valid()
      modifies this
      ensures Valid()
      ensures old(track).None? || !old(track).value.canQueryCapabilities ==>
        notice == Some(FlashNotSupported) && State() == old(State())
      ensures old(track).Some? && old(track).value.canQueryCapabilities && !old(track).value.torch ==>
        notice == Some(FlashNotAvailable) && State() == old(State())
      ensures old(track).Some? && old(track).value.canQueryCapabilities && old(track).value.torch ==>
        State() == old(State()).(flashActive := applied && !old(flashActive)) &&
        notice == (if applied then None else Some(FlashFailed))
    {
      if track.None? || !track.value.canQueryCapabilities {
        notice := Some(FlashNotSupported);
        return;
      }
      if !track.value.torch {
        notice := Some(FlashNotAvailable);
        return;
      }
      flashActive := !flashActive;
      notice := None;
      if !applied {
        flashActive := false;
        notice := Some(FlashFailed);
      }
    }

    /**
     * The switch button: ignored without a stream, refused while recording,
     * else face the other way, turn the flash off and reopen the camera.
     */
    method SwitchCamera(reopened: Option<Track>) returns (notice: Option<string>)
      requires Valid()
      modifies this
      ensures Valid()
      ensures !old(hasStream) ==> notice == None && State() == old(State())
      ensures old(hasStream) && old(isRecording) ==>
        notice == Some(StopRecordingFirstForCamera) && State() == old(State())
      ensures old(hasStream) && !old(isRecording) ==> notice == None && currentCamera == Flip(old(currentCamera))
      ensures old(hasStream) && !old(isRecording) && reopened.Some? ==>
        State() == old(State()).(currentCamera := Flip(old(currentCamera)), flashActive := false,
                                 streamLive := true, track := reopened)
      ensures old(hasStream) && !old(isRecording) && reopened.None? ==>
        State() == old(State()).(currentCamera := Flip(old(currentCamera)), flashActive := false,
                                 streamLive := false)
    {
      notice := None;
      if !hasStream {
        return;
      }
      if isRecording {
        notice := Some(StopRecordingFirstForCamera);
        return;
      }
      currentCamera := Flip(currentCamera);
      flashActive := false;
      SetupCamera(reopened);
    }

    /** Store a captured item at the end of the gallery list. */
    method AddToGallery(kind: MediaKind, blob: seq<bv8>, url: string, now: int)
      requires Valid()
      modifies this
      ensures Valid()
      ensures State() == old(State()).(capturedMedia := old(capturedMedia) + [MediaItem(kind, blob, url, now)])
    {
      capturedMedia := capturedMedia + [MediaItem(kind, blob, url, now)];
    }

    /**
     * Take a photo of the current `frameWidth` x `frameHeight` frame: nothing
     * without a stream; else compose it with its footer and store its encoding.
     */
    method CapturePhoto(frameWidth: nat, frameHeight: nat, dateText: string, timeText: string,
                        blob: seq<bv8>, url: string, now: int) returns (photo: Option<PhotoDrawing>)
      requires Valid()
      modifies this
      ensures Valid()
      ensures !old(hasStream) ==> photo == None && State() == old(State())
      ensures old(hasStream) ==>
        photo == Some(ComposePhoto(frameWidth, frameHeight, dateText, timeText,
                                   old(currentPosition), old(currentAddress), old(hasMap)))
      ensures old(hasStream) ==>
        State() == old(State()).(capturedMedia := old(capturedMedia) + [MediaItem(Photo, blob, url, now)])
    {
      if !hasStream {
        return None;
      }
      var drawing := ComposePhoto(frameWidth, frameHeight, dateText, timeText, currentPosition, currentAddress, hasMap);
      AddToGallery(Photo, blob, url, now);
      photo := Some(drawing);
    }

    /** The capture button: a photo in photo mode, else start or stop a recording. */
    method OnCaptureClick(frameWidth: nat, frameHeight: nat, dateText: string, timeText: string,
                          blob: seq<bv8>, url: string, now: int)
      returns (photo: Option<PhotoDrawing>, notice: Option<string>)
      requires Valid()
      modifies this
      ensures Valid()
      ensures old(currentMode) == PhotoMode ==> notice == None
      ensures old(currentMode) == PhotoMode && !old(hasStream) ==> photo == None && State() == old(State())
      ensures old(currentMode) == PhotoMode && old(hasStream) ==>
        photo == Some(ComposePhoto(frameWidth, frameHeight, dateText, timeText,
                                   old(currentPosition), old(currentAddress), old(hasMap))) &&
        State() == old(State()).(capturedMedia := old(capturedMedia) + [MediaItem(Photo, blob, url, now)])
      ensures old(currentMode) == VideoMode ==> photo == None
      ensures old(currentMode) == VideoMode && old(isRecording) ==>
        notice == None && State() == old(State()).(isRecording := false)
      ensures old(currentMode) == VideoMode && !old(isRecording) && !old(hasStream) ==>
        notice == Some(CameraNotAvailable) && State() == old(State())
      ensures old(currentMode) == VideoMode && !old(isRecording) && old(hasStream) && !old(streamLive) ==>
        notice == None && State() == old(State())
      ensures old(currentMode) == VideoMode && !old(isRecording) && old(hasStream) && old(streamLive) ==>
        notice == None && State() == old(State()).(isRecording := true)
    {
      if currentMode == PhotoMode {
        photo := CapturePhoto(frameWidth, frameHeight, dateText, timeText, blob, url, now);
        notice := None;
      } else {
        photo := None;
        notice := ToggleVideo();
      }
    }

    /** The end of a geolocation attempt: update position, address and map, and say what the panel shows. */
    method ApplyLocation(outcome: LocationOutcome) returns (panel: PanelText)
      requires Valid()
      modifies this
      ensures Valid()
      ensures panel == LocationPanel(outcome)
      ensures outcome.Unsupported? ==> State() == old(State())
      ensures outcome.PositionError? ==>
        State() == old(State()).(currentAddress := Some(AddressFallback), hasMap := true)
      ensures outcome.Located? ==>
        State() == old(State()).(currentPosition := Some(outcome.fix),
                                 currentAddress := Some(LocatedAddress(outcome.geocode)),
                                 hasMap := true)
    {
      StoreLocation(outcome);
      panel := LocationPanel(outcome);
    }

    /** The fields a geolocation attempt leaves behind. */
    method StoreLocation(outcome: LocationOutcome)
      requires Valid()
      modifies this
      ensures Valid()
      ensures outcome.Unsupported? ==> State() == old(State())
      ensures outcome.PositionError? ==>
        State() == old(State()).(currentAddress := Some(AddressFallback), hasMap := true)
      ensures outcome.Located? ==>
        State() == old(State()).(currentPosition := Some(outcome.fix),
                                 currentAddress := Some(LocatedAddress(outcome.geocode)),
                                 hasMap := true)
    {
      match outcome {
        case Unsupported =>
        case PositionError =>
          currentAddress := Some(AddressFallback);
          hasMap := true;
        case Located(fix, geocode) =>
          currentPosition := Some(fix);
          currentAddress := Some(LocatedAddress(geocode));
          hasMap := true;
      }
    }
  }

  /** Two successful switches, each reopening the camera, face the original way again. */
  method SwitchCameraTwice(cam: GeoCam, first: Option<Track>, second: Option<Track>)
    requires cam.Valid() && cam.hasStream && !cam.isRecording
    modifies cam
    ensures cam.Valid()
    ensures cam.currentCamera == old(cam.currentCamera) && !cam.flashActive
  {
    var n1 := cam.SwitchCamera(first);
    var n2 := cam.SwitchCamera(second);
    FlipTwice(old(cam.currentCamera));
  }

  /** While a recording runs, neither the mode nor the camera can change. */
  method RecordingLocksControls(cam: GeoCam, mode: Mode, reopened: Option<Track>)
    requires cam.Valid() && cam.hasStream && cam.streamLive && cam.currentMode == VideoMode && !cam.isRecording
    modifies cam
    ensures cam.Valid()
    ensures !cam.isRecording && cam.currentMode == VideoMode
    ensures cam.currentCamera == old(cam.currentCamera)
  {
    var started := cam.ToggleVideo();
    var refusedMode := cam.SetMode(mode, reopened);
    var refusedSwitch := cam.SwitchCamera(reopened);
    assert refusedMode.Some? && refusedSwitch.Some?;
    var stopped := cam.ToggleVideo();
  }
}

=== FILE: decimal.dfy ===
/**
 * Decimal text of numbers, as JavaScript produces it for the two numbers the
 * controller turns into text: `Date.now()` in a download file name (a
 * non-negative integer, rendered without leading zeros) and a coordinate
 * rendered with `toFixed(6)` (an optional minus sign, the integer part, a
 * point and exactly six decimals).
 *
 * Coordinates are held as integer micro-degrees, so `FixedSix(v)` is the text
 * `toFixed(6)` gives for the number v / 1000000. Each renderer has a reader
 * beside it, and the lemmas prove that reading the text back gives the number.
 */
module Decimal {

  predicate IsDigit(c: char) {
    '0' <= c <= '9'
  }

  predicate AllDigits(s: string) {
    forall i :: 0 <= i < |s| ==> IsDigit(s[i])
  }

  function DigitChar(d: nat): (c: char)
    requires d < 10
    ensures IsDigit(c)
    ensures c as int - '0' as int == d
  {
    ('0' as int + d) as char
  }

  function DigitValue(c: char): (d: nat)
    requires IsDigit(c)
    ensures d < 10
  {
    c as int - '0' as int
  }

  /** The number a string of decimal digits denotes (most significant first). */
  function ValueOf(s: string): nat
    requires AllDigits(s)
  {
    if s == [] then 0 else ValueOf(s[..|s| - 1]) * 10 + DigitValue(s[|s| - 1])
  }

  function Pow10(k: nat): (p: nat)
    ensures p >= 1
  {
    if k == 0 then 1 else 10 * Pow10(k - 1)
  }

  /** Shortest decimal text of a non-negative integer, as `String(n)` gives it. */
  function NatToString(n: nat): (s: string)
    ensures |s| >= 1 && AllDigits(s)
    ensures s[0] == '0' <==> n == 0
    decreases n
  {
    if n < 10 then [DigitChar(n)] else NatToString(n / 10) + [DigitChar(n % 10)]
  }

  /** The last `k` decimal digits of n, zero-padded on the left to exactly `k` digits. */
  function PadDigits(n: nat, k: nat): (s: string)
    ensures |s| == k && AllDigits(s)
    decreases k
  {
    if k == 0 then [] else PadDigits(n / 10, k - 1) + [DigitChar(n % 10)]
  }

  /** Appending one digit multiplies the value by ten and adds the digit. */
  lemma ValueOfSnoc(s: string, c: char)
    requires AllDigits(s) && IsDigit(c)
    ensures AllDigits(s + [c])
    ensures ValueOf(s + [c]) == ValueOf(s) * 10 + DigitValue(c)
  {
  }

  lemma {:induction false} NatToStringRoundTrip(n: nat)
    ensures ValueOf(NatToString(n)) == n
    decreases n
  {
    if n < 10 {
      assert NatToString(n) == [] + [DigitChar(n)];
      ValueOfSnoc([], DigitChar(n));
    } else {
      NatToStringRoundTrip(n / 10);
      ValueOfSnoc(NatToString(n / 10), DigitChar(n % 10));
    }
  }

  lemma {:induction false} PadDigitsRoundTrip(n: nat, k: nat)
    requires n < Pow10(k)
    ensures ValueOf(PadDigits(n, k)) == n
    decreases k
  {
    if k > 0 {
      assert n / 10 < Pow10(k - 1);
      PadDigitsRoundTrip(n / 10, k - 1);
      ValueOfSnoc(PadDigits(n / 10, k - 1), DigitChar(n % 10));
    }
  }

  /** Number of decimals `toFixed` is asked for. */
  const Decimals: nat := 6
  /** Micro-degrees per degree. */
  const Scale: nat := 1000000

  /** `(v / 1000000).toFixed(6)`: sign, integer part, point, six decimals. */
  function FixedSix(v: int): (s: string)
    ensures IsFixedSix(s)
    ensures s[0] == '-' <==> v < 0
    ensures var t := if v < 0 then s[1..] else s;
      t[..|t| - 7] == NatToString((if v < 0 then -v else v) / Scale) &&
      t[|t| - 6..] == PadDigits((if v < 0 then -v else v) % Scale, Decimals)
  {
    var m := if v < 0 then -v else v;
    var body := NatToString(m / Scale) + "." + PadDigits(m % Scale, Decimals);
    assert body[..|body| - 7] == NatToString(m / Scale);
    assert body[|body| - 6..] == PadDigits(m % Scale, Decimals);
    if v < 0 then
      assert ("-" + body)[1..] == body;
      "-" + body
    else
      body
  }

  /** Digits, a point, and exactly six digits. */
  predicate IsUnsignedFixedSix(t: string) {
    |t| >= 8 && AllDigits(t[..|t| - 7]) && t[|t| - 7] == '.' && AllDigits(t[|t| - 6..])
  }

  /** The shape of a `toFixed(6)` text: an optional minus sign, then an unsigned one. */
  predicate IsFixedSix(s: string) {
    IsUnsignedFixedSix(s) || (|s| >= 1 && s[0] == '-' && IsUnsignedFixedSix(s[1..]))
  }

  function ReadUnsignedFixedSix(t: string): nat
    requires IsUnsignedFixedSix(t)
  {
    ValueOf(t[..|t| - 7]) * Scale + ValueOf(t[|t| - 6..])
  }

  /** Reads a `toFixed(6)` text back into micro-degrees. */
  function ReadFixedSix(s: string): int
    requires IsFixedSix(s)
  {
    if s[0] == '-' then
      assert !IsUnsignedFixedSix(s) by { assert s[..|s| - 7][0] == '-'; }
      -(ReadUnsignedFixedSix(s[1..]) as int)
    else
      ReadUnsignedFixedSix(s)
  }

  /** Reading the rendered text gives back exactly the micro-degrees rendered. */
  lemma FixedSixRoundTrip(v: int)
    ensures ReadFixedSix(FixedSix(v)) == v
  {
    var m := if v < 0 then -v else v;
    var ip := NatToString(m / Scale);
    var fp := PadDigits(m % Scale, Decimals);
    var body := ip + "." + fp;
    assert body[..|body| - 7] == ip;
    assert body[|body| - 6..] == fp;
    NatToStringRoundTrip(m / Scale);
    assert Pow10(Decimals) == Scale;
    PadDigitsRoundTrip(m % Scale, Decimals);
    assert ReadUnsignedFixedSix(body) == m;
    if v < 0 {
      assert FixedSix(v) == "-" + body;
      assert ("-" + body)[1..] == body;
    } else {
      assert FixedSix(v) == body;
    }
  }
}

=== FILE: footer.dfy ===
/**
 * Integer geometry of a stamped photo: the 120 px footer band appended below
 * the camera frame, the four text lines drawn on it, and the mini map box with
 * its crosshair. Colours, fonts and pixels are not modelled; a drawing is the
 * list of rectangles, points and texts the canvas calls receive.
 */
module Footer {
  import opened Wrappers
  import opened Captions

  datatype Point = Point(x: int, y: int)

  /** A canvas rectangle: top-left corner and size, as `fillRect(x, y, width, height)`. */
  datatype Rect = Rect(x: int, y: int, width: int, height: int)

  /** A `fillText(text, at.x, at.y)` call; `at` is the start of the text's baseline. */
  datatype Caption = Caption(text: string, at: Point)

  /** The mini map: its framed box, the crosshair centre and the title above the box. */
  datatype MiniMap = MiniMap(box: Rect, crosshair: Point, title: Caption)

  /** What is drawn on the footer band. */
  datatype FooterDrawing = FooterDrawing(backdrop: Rect, captions: seq<Caption>, miniMap: Option<MiniMap>)

  /** The final photo canvas: its size, where the camera frame goes, and the footer. */
  datatype PhotoDrawing = PhotoDrawing(width: int, height: int, frame: Rect, footer: FooterDrawing)

  const FooterHeight: nat := 120
  const TextLeft: int := 20
  const MapSize: int := 140
  const MapHeight: int := 90
  const MapMarginRight: int := 20
  const MapMarginTop: int := 15
  const CrosshairArm: int := 10

  predicate Contains(outer: Rect, inner: Rect) {
    outer.x <= inner.x && inner.x + inner.width <= outer.x + outer.width &&
    outer.y <= inner.y && inner.y + inner.height <= outer.y + outer.height
  }

  predicate ContainsPoint(r: Rect, p: Point) {
    r.x <= p.x <= r.x + r.width && r.y <= p.y <= r.y + r.height
  }

  /**
   * The mini map box on a footer band that starts at `startY` on a canvas
   * `width` wide: 140 x 90, 20 px from the right edge, 15 px below the band's top.
   */
  function MapBox(width: int, startY: int): (r: Rect)
    ensures r.width == MapSize && r.height == MapHeight
    ensures r.x + r.width + MapMarginRight == width
    ensures startY < r.y && r.y + r.height < startY + FooterHeight
    ensures Contains(Rect(0, startY, width, FooterHeight), r) <==> width >= MapSize + MapMarginRight
  {
    Rect(width - MapSize - MapMarginRight, startY + MapMarginTop, MapSize, MapHeight)
  }

  /** The crosshair centre of a mini map box. */
  function Crosshair(box: Rect): (c: Point)
    requires box.width == MapSize && box.height == MapHeight
    ensures 2 * (c.x - box.x) == box.width && 2 * (c.y - box.y) == box.height
    ensures box.x < c.x - CrosshairArm && c.x + CrosshairArm < box.x + box.width
    ensures box.y < c.y - CrosshairArm && c.y + CrosshairArm < box.y + box.height
  {
    Point(box.x + MapSize / 2, box.y + 45)
  }

  /**
   * The mini map drawn on a footer band that starts at `startY` on a canvas
   * `width` wide: the box, its crosshair and the title just above the box.
   */
  function DrawMiniMap(width: int, startY: int): (m: MiniMap)
    ensures m.box == MapBox(width, startY)
    ensures m.crosshair == Crosshair(m.box) && ContainsPoint(m.box, m.crosshair)
    ensures m.title == Caption("Location Map", Point(m.box.x, m.box.y - 5))
    ensures startY < m.title.at.y < m.box.y
  {
    var box := MapBox(width, startY);
    MiniMap(box, Crosshair(box), Caption("Location Map", Point(box.x, box.y - 5)))
  }

  /** A text line starts at the left margin with its baseline inside the band at `startY`. */
  predicate OnTextColumn(c: Caption, startY: int) {
    c.at.x == TextLeft && startY < c.at.y < startY + FooterHeight
  }

  /** Four lines placed 20 px apart from 25 px below the band top all sit on the text column. */
  lemma FourOnTextColumn(a: Caption, b: Caption, c: Caption, d: Caption, startY: int)
    requires a.at == Point(TextLeft, startY + 25) && b.at == Point(TextLeft, startY + 45)
    requires c.at == Point(TextLeft, startY + 65) && d.at == Point(TextLeft, startY + 85)
    ensures forall i :: 0 <= i < |[a, b, c, d]| ==>
      [a, b, c, d][i].at == Point(TextLeft, startY + 25 + 20 * i) && OnTextColumn([a, b, c, d][i], startY)
  {
  }

  /**
   * The four text lines of a footer band that starts at `startY`: the app
   * name, the date and time, the coordinates and the address.
   */
  function FooterLines(startY: int, dateText: string, timeText: string,
                       position: Option<Fix>, address: Option<string>): (lines: seq<Caption>)
    ensures |lines| == 4 && lines[0].text == "GeoCam"
    ensures forall i :: 0 <= i < |lines| ==>
      lines[i].at == Point(TextLeft, startY + 25 + 20 * i) && OnTextColumn(lines[i], startY)
    ensures lines[1].text == "\U{1F4C5} " + dateText + " | \U{23F0} " + timeText
    ensures lines[2].text ==
      "\U{1F4CD} " + FooterCoordinates(position).0 + ", " + FooterCoordinates(position).1
    ensures lines[3].text == "\U{1F3E0} " + FooterAddress(address)
    ensures |lines[3].text| <= 2 + FooterAddressLimit
    ensures position.None? ==> lines[2].text == "\U{1F4CD} N/A, N/A"
  {
    var coordinates := FooterCoordinates(position);
    var addressLine := FooterAddress(address);
    var name := Caption("GeoCam", Point(TextLeft, startY + 25));
    var when := Caption("\U{1F4C5} " + dateText + " | \U{23F0} " + timeText, Point(TextLeft, startY + 45));
    var where := Caption("\U{1F4CD} " + coordinates.0 + ", " + coordinates.1, Point(TextLeft, startY + 65));
    var home := Caption("\U{1F3E0} " + addressLine, Point(TextLeft, startY + 85));
    FourOnTextColumn(name, when, where, home, startY);
    [name, when, where, home]
  }

  /**
   * The footer drawn at `startY` on a canvas `width` wide, with a band
   * `height` tall: a backdrop over the band, the four text lines at the left,
   * and the mini map when both a position and the on-page map exist.
   */
  function DrawFooter(startY: int, width: int, height: int, dateText: string, timeText: string,
                      position: Option<Fix>, address: Option<string>, hasMap: bool): (d: FooterDrawing)
    ensures d.backdrop == Rect(0, startY, width, height)
    ensures d.captions == FooterLines(startY, dateText, timeText, position, address)
    ensures d.miniMap.Some? <==> position.Some? && hasMap
    ensures d.miniMap.Some? ==>
      d.miniMap.value.box == MapBox(width, startY) &&
      d.miniMap.value.crosshair == Crosshair(d.miniMap.value.box) &&
      ContainsPoint(d.miniMap.value.box, d.miniMap.value.crosshair) &&
      d.miniMap.value.title == Caption("Location Map", Point(d.miniMap.value.box.x, d.miniMap.value.box.y - 5)) &&
      startY < d.miniMap.value.title.at.y < d.miniMap.value.box.y
  {
    var miniMap := if position.Some? && hasMap then Some(DrawMiniMap(width, startY)) else None;
    FooterDrawing(Rect(0, startY, width, height), FooterLines(startY, dateText, timeText, position, address), miniMap)
  }

  /**
   * The photo: the camera frame at the top of a canvas as wide as the frame
   * and 120 px taller, with the footer drawn on the band below the frame.
   */
  function ComposePhoto(frameWidth: nat, frameHeight: nat, dateText: string, timeText: string,
                        position: Option<Fix>, address: Option<string>, hasMap: bool): (p: PhotoDrawing)
    ensures p.width == frameWidth && p.height == frameHeight + FooterHeight
    ensures p.frame == Rect(0, 0, frameWidth, frameHeight)
    ensures p.footer == DrawFooter(frameHeight, frameWidth, FooterHeight, dateText, timeText, position, address, hasMap)
    ensures p.footer.backdrop.y == p.frame.y + p.frame.height
    ensures p.footer.backdrop == Rect(0, frameHeight, p.width, p.height - frameHeight)
    ensures p.footer.miniMap.Some? ==>
      (Contains(Rect(0, 0, p.width, p.height), p.footer.miniMap.value.box) <==> frameWidth >= MapSize + MapMarginRight)
  {
    PhotoDrawing(frameWidth, frameHeight + FooterHeight, Rect(0, 0, frameWidth, frameHeight),
                 DrawFooter(frameHeight, frameWidth, FooterHeight, dateText, timeText, position, address, hasMap))
  }
}

=== FILE: wrappers.dfy ===
/** Optional values: the model's stand-in for JavaScript's `null`/`undefined`. */
module Wrappers {

  datatype Option<+T> = None | Some(value: T)
}
